=== FILE: README.md ===
# jquery.autosuggest: a Dafny model of the suggestion logic

This project models the sequential logic inside the jQuery AutoSuggest plugin
(`jquery.autosuggest.js`):

- **Key classification.** `handleKeyup` decides whether a released key triggers a lookup and whether it may type ahead.
- **Suggestion cursor.** The module variable `current`, `nextSuggestion`, `previousSuggestion` and the `handleKeydown` dispatch (up, down, enter), over the list last rendered into the dropdown.
- **Matcher.** `findSuggestions` projects each candidate to `first_name + " " + last_name` and tests it with `new RegExp(input, "gi")`. The regex's `lastIndex` is carried from one candidate to the next.
- **Data source.** The branch and freshness logic of `getData`: provider, then static list, then ajax URL with `localStorage` and `navigator.onLine`. Stored data expires when `stored + 600 * 1000 < now`.
- **Type-ahead.** `typeAhead` and `selectRange`: the value becomes the first suggestion, and the part past the typed length is selected.
- **`doSuggest` and the listeners.** How a key-up runs getData, the matcher, type-ahead and show/hide. Blur hides the list.

Modules: `Wrappers` (Option), `Keys`, `Matcher`, `Cursor`, `Selection`, `Source`, `AutoSuggest`.
The browser's clock, storage, connectivity and the provider function's return value are parameters.
A `None` result of `Source.Resolve` stands for `undefined`, `null`, or an error thrown inside `getData`.
In the `undefined` and `null` cases `doSuggest` throws when it reads `items.length`.
A `TypeError` or `ReferenceError` inside `getData` is thrown before `items.length` is read. The single-part provider (`window[provider]` with `provider` never assigned) throws a `TypeError`, and reading the undeclared `ajaxurl` throws a `ReferenceError` when no such global exists.
In every case the widget is left unchanged.

Facts about the code that the model keeps:
- `findSuggestions` keeps every hit in pool order. There is no result limit and no escaping of the query.
- The cursor is never reset to -1 when a list is shown or hidden.
- Hiding keeps the rendered list, so the arrow keys still navigate it and copy its items into the input.
- The freshness test is `stored + 600000 < now` on milliseconds; equality counts as fresh.

## Model

| member | source | states |
|---|---|---|
| Keys.ClassifyKey | jquery.autosuggest.js:122-146 | a key that may type ahead always triggers a lookup |
| Keys.ClassifyKeyClasses | jquery.autosuggest.js:122-146 | codes 8 and 46 give {true,false}; codes below 32 other than 8, 33-45 and 112-123 give {false,false}; every other code gives {true,true}; each as an equivalence |
| Keys.SpaceTypesAhead | jquery.autosuggest.js:132-145 | space (32) is an ordinary character: lookup and type-ahead |
| Keys.EditingKeysSuppressTypeAhead | jquery.autosuggest.js:125-131 | a lookup without type-ahead happens exactly for backspace and delete |
| Matcher.ProjectParts | jquery.autosuggest.js:570 | a record projects to first name, one space, last name; any other element projects to "undefined undefined" |
| Matcher.Fold | jquery.autosuggest.js:566 | folding maps an upper-case ASCII letter to its lower-case partner, leaves every other character, and never yields an upper-case letter |
| Matcher.FoldIgnoresCase | jquery.autosuggest.js:566 | folding is idempotent and sends a letter and its upper-case partner to the same character |
| Matcher.Search | jquery.autosuggest.js:566-572 | the result is the leftmost case-insensitive occurrence at or after the start position; none means there is no occurrence there |
| Matcher.Test | jquery.autosuggest.js:572 | a failed global regex test resets lastIndex to 0; a success leaves lastIndex at the end of the leftmost occurrence at or after the old lastIndex, within the string |
| Matcher.TestFinds | jquery.autosuggest.js:566-572 | a global regex test succeeds iff the query occurs at or after lastIndex, and a success leaves lastIndex at the end of the leftmost such occurrence |
| Matcher.Scan | jquery.autosuggest.js:569-575 | the loop with lastIndex carried over keeps at most one string per candidate |
| Matcher.ScanSound | jquery.autosuggest.js:569-575 | every string the loop keeps contains the query, ignoring case |
| Matcher.FindSuggestions | jquery.autosuggest.js:562-581 | at most as many results as candidates; empty input gives [] |
| Matcher.FindSuggestionsSound | jquery.autosuggest.js:566-575 | every result contains the input, ignoring case |
| Matcher.FindSuggestionsIsSubsequence | jquery.autosuggest.js:566-575 | the result is an order-preserving subsequence of the first_name + " " + last_name projections |
| Matcher.ScanSelectsVerdicts | jquery.autosuggest.js:569-575 | the scan returns exactly the projections whose test in the lastIndex-threaded trace succeeded |
| Matcher.TraceStep | jquery.autosuggest.js:569-572 | candidate i is tested with the lastIndex left by the test of candidate i-1 |
| Matcher.TestFromStart | jquery.autosuggest.js:566-572 | a test from lastIndex 0 succeeds iff the string contains the query |
| Matcher.KeptIff | jquery.autosuggest.js:569-575 | candidate i is kept iff the query occurs in its projection at or after the carried lastIndex |
| Matcher.LastIndexResetAfterMiss | jquery.autosuggest.js:572 | a rejected candidate leaves lastIndex at 0 for the next one |
| Matcher.KeptAfterMissIff | jquery.autosuggest.js:569-575 | the first candidate, and any candidate after a rejected one, is kept iff it contains the query |
| Matcher.SkippedAfterHit | jquery.autosuggest.js:569-575 | after a kept candidate, a candidate whose occurrences all start before the carried lastIndex is dropped |
| Matcher.SkippedMatchExample | jquery.autosuggest.js:566-575 | for "ann" over Anne Smith, Ann Lee, Bob Anne the result is [Anne Smith, Bob Anne], though Ann Lee contains "ann" |
| Matcher.HitsIff | jquery.autosuggest.js:566-572 | testing each candidate from lastIndex 0 sets flag i iff projection i contains the query |
| Matcher.FindAll | jquery.autosuggest.js:562-581 | the intended matcher returns at most one string per candidate and nothing for an empty input |
| Matcher.FindAllFilters | jquery.autosuggest.js:562-581 | the intended matcher is a filter: a candidate is kept, in pool order, iff its projection contains the query |
| Matcher.FindAllExample | jquery.autosuggest.js:562-581 | the intended matcher returns all three names of the example |
| Matcher.SelectFewer | jquery.autosuggest.js:569-575 | keeping fewer positions of a sequence gives a subsequence of keeping more |
| Matcher.FindSuggestionsWithinFindAll | jquery.autosuggest.js:562-581 | the code's result is always an order-preserving subsequence of the intended result |
| Cursor.Attach | jquery.autosuggest.js:37 | the first widget attached on a page has an empty hidden dropdown and the cursor at exactly -1 |
| Cursor.Next | jquery.autosuggest.js:368-377 | down keeps the list and visibility, moves the cursor by 0 or +1 but never past the last item, and any changed value is the newly highlighted item |
| Cursor.Previous | jquery.autosuggest.js:384-393 | up keeps the list and visibility, moves the cursor by 0 or -1 but never below 0, and any changed value is the newly highlighted item |
| Cursor.Hide | jquery.autosuggest.js:242-244 | hiding changes only visibility: list, cursor and value stay |
| Cursor.Show | jquery.autosuggest.js:346-361 | showing renders the new list and makes it visible, leaving the cursor and value |
| Cursor.KeyDown | jquery.autosuggest.js:154-167 | a key-down moves the cursor by at most one, keeps the list, and a changed value is the highlighted item |
| Cursor.NextMoves | jquery.autosuggest.js:368-377 | down moves by exactly one and copies the new item iff count > 0 and current < count-1; otherwise nothing changes |
| Cursor.PreviousMoves | jquery.autosuggest.js:384-393 | with count > 0 and current > 0, up moves by exactly one and copies the new item when it lies inside the list; a stale cursor past the list reads no item and keeps the value; at current <= 0 it is a no-op |
| Cursor.KeyDownKeepsValid | jquery.autosuggest.js:154-167 | no key-down, hide or show takes the cursor below -1 |
| Cursor.NextThenPrevious | jquery.autosuggest.js:368-393 | down then up returns to the same item |
| Cursor.PreviousThenNext | jquery.autosuggest.js:368-393 | up then down returns to the same item |
| Cursor.NextNStopsAtLast | jquery.autosuggest.js:368-377 | n presses of down leave the cursor at min(current+n, count-1) with that item in the input: no wrap-around |
| Cursor.NextNFixedAtLast | jquery.autosuggest.js:371 | at the last item, further down presses change nothing |
| Cursor.HiddenListStillNavigable | jquery.autosuggest.js:162-164 | enter is exactly hideSuggestions; the arrows act on the hidden list as on the shown one |
| Cursor.OtherKeysIgnored | jquery.autosuggest.js:154-167 | keys other than 38, 40 and 13 change nothing on key-down |
| Cursor.StaleCursorExample | jquery.autosuggest.js:346-393 | after reaching item 3 of 3 and showing a 1-item list, down does nothing; one up press moves the cursor off the list without changing the value, and only a second one reaches the new item |
| Cursor.ShowReset | jquery.autosuggest.js:346-361 | the intended show renders the list with the cursor at -1 |
| Cursor.ShowResetReachesEveryItem | jquery.autosuggest.js:368-377 | after the intended show, n down presses reach item min(n, count)-1 |
| Selection.SetSelectionRange | jquery.autosuggest.js:222-234 | the selection lies within the value; an end past the value becomes its length, a start past the end becomes the end, and an in-range start and end are kept |
| Selection.TypeAhead | jquery.autosuggest.js:206-211 | the new value is the suggestion, and the selection runs from min(typed length, suggestion length) to the suggestion's end |
| Selection.TypeAheadSelectsTail | jquery.autosuggest.js:206-234 | when the suggestion is at least as long as the typed text, exactly its tail past the typed length is selected |
| Source.SplitDots | jquery.autosuggest.js:407 | splitting a provider name yields at least one part, none containing a dot |
| Source.SplitJoin | jquery.autosuggest.js:407 | joining the parts with dots restores the name |
| Source.Depth | jquery.autosuggest.js:407-412 | every provider name has at least one namespace |
| Source.NoDotsOnePart | jquery.autosuggest.js:407 | a name without dots is its own single part |
| Source.Expired | jquery.autosuggest.js:446-451 | only a parsable date can expire, and it has expired iff more than 600000 ms have passed since it |
| Source.ExpiredStaysExpired | jquery.autosuggest.js:451 | once expired a timestamp stays expired at every later time |
| Source.AsPlain | jquery.autosuggest.js:431-433 | the strings findSuggestions returns become array elements one for one, in order, without name fields |
| Source.Decide | jquery.autosuggest.js:401-553 | a fetch is chosen only online with an ajax url; cached data only with usable storage and a stored timestamp; a provider only at depth 1-4 |
| Source.Resolve | jquery.autosuggest.js:431-433 | the static-list branch returns at most one match per list entry, and nothing for an empty query |
| Source.OnFetchSuccess | jquery.autosuggest.js:461-466 | with storage, a successful request stores its response and the time; without storage it stores nothing |
| Source.SourcePrecedence | jquery.autosuggest.js:404-437 | a provider wins over a static list, and a static list over an ajax url |
| Source.ProviderDepth | jquery.autosuggest.js:404-425 | a provider of 1 to 4 parts is called with that depth, a deeper one falls out of the switch |
| Source.Freshness | jquery.autosuggest.js:443-485 | with a stored date t, the stored data is used iff t + 600000 >= now or offline; a fetch happens iff t + 600000 < now and online |
| Source.OfflineUsesStaleData | jquery.autosuggest.js:476-479 | offline, expired stored data is still returned |
| Source.UnparsableStampNeverExpires | jquery.autosuggest.js:446-451 | a timestamp that is not a date never expires |
| Source.EmptyOutcomes | jquery.autosuggest.js:488-551 | the `return []` branches (:514, :542, :550) are taken exactly for: no source; storage without timestamp and offline; no storage and offline |
| Source.FetchOnlyOnline | jquery.autosuggest.js:453-543 | a request is only issued online to an ajax url, its result is not returned, and it stores iff storage is usable |
| Source.FetchedDataServedUntilExpiry | jquery.autosuggest.js:443-503 | after a stored response at time t, every later call up to t + 600000, online or offline, returns that response |
| Source.SingleNameProviderThrows | jquery.autosuggest.js:422-424 | a provider name without dots is never called: getData throws |
| Source.ResolveIntended | jquery.autosuggest.js:401-553 | the intended getData hands the static list over unmatched and calls a single-part provider |
| Source.ResolveIntendedAgrees | jquery.autosuggest.js:401-553 | the intended getData agrees with the code except on the static list and the single-part provider |
| AutoSuggest.DoSuggest | jquery.autosuggest.js:173-199 | type-ahead needs both flags; no data or empty data changes nothing; the cursor is never moved |
| AutoSuggest.KeyUp | jquery.autosuggest.js:90-105 | a non-character key changes nothing; backspace and delete never type ahead; the cursor is never moved |
| AutoSuggest.Blur | jquery.autosuggest.js:108-114 | blur hides the list and keeps everything else |
| AutoSuggest.DoSuggestShowsMatches | jquery.autosuggest.js:176-191 | a non-empty match is shown, typed ahead iff both flags are set; an empty match only hides the list |
| AutoSuggest.TypeAheadSelectsUntypedPart | jquery.autosuggest.js:183-186 | a type-ahead writes the first suggestion, which contains the typed text, and selects from the typed length to its end |
| AutoSuggest.IgnoredKeysDoNothing | jquery.autosuggest.js:97-103 | ignored keys leave the widget unchanged |
| AutoSuggest.EditingKeysNeverTypeAhead | jquery.autosuggest.js:125-131 | backspace and delete never type ahead |
| AutoSuggest.FetchShowsNothing | jquery.autosuggest.js:176-178 | while the data is being fetched, a key-up changes nothing |
| AutoSuggest.ScanOfPlain | jquery.autosuggest.js:570-573 | matching plain strings yields only "undefined undefined" |
| AutoSuggest.StaticListShowsOnlyUndefined | jquery.autosuggest.js:431-433 | with a static list, any newly shown list consists of "undefined undefined" only |
| AutoSuggest.AnnNotInUndefined | jquery.autosuggest.js:570-572 | "ann" does not occur in "undefined undefined" |
| AutoSuggest.StaticListExample | jquery.autosuggest.js:176-191 | the static list [Ann Lee] with "ann" typed hides the list instead of showing it |
| AutoSuggest.DoSuggestIntended | jquery.autosuggest.js:173-199 | the intended doSuggest types ahead only when both flags are set, and either keeps the cursor or shows a list with the cursor at -1 |
| AutoSuggest.KeyUpIntended | jquery.autosuggest.js:90-105 | with the corrections, a non-character key still changes nothing, and backspace and delete never type ahead |
| AutoSuggest.IntendedStaticListShowsAllMatches | jquery.autosuggest.js:173-199 | with the corrections, a static list shows every entry containing the typed text, nothing highlighted |
| AutoSuggest.IntendedStaticListExample | jquery.autosuggest.js:173-199 | with the corrections, the static list [Ann Lee] with "ann" typed shows Ann Lee |

## Findings

| source | as written | input that shows it | evidently intended | confidence | as-written member | corrected member |
|---|---|---|---|---|---|---|
| jquery.autosuggest.js:566-575 | one global ("g") regex is reused for all candidates, so each test starts at the previous match's end | "ann" over Anne Smith, Ann Lee, Bob Anne: Ann Lee is skipped | every candidate containing the input is suggested | high, not executed | Matcher.SkippedMatchExample | Matcher.FindAllFilters |
| jquery.autosuggest.js:346-377 | `current` is not reset when a new list is shown | go down to item 3 of 3, then get a 1-item list: down cannot reach it | a new list starts with nothing highlighted | high, not executed | Cursor.StaleCursorExample | Cursor.ShowResetReachesEveryItem |
| jquery.autosuggest.js:431-433 | getData already matches the static list, and doSuggest matches the resulting strings again, reading first_name/last_name of a string | static list [Ann Lee], input "ann": the list is hidden | the static list is matched once and Ann Lee is shown | high, not executed | AutoSuggest.StaticListExample | AutoSuggest.IntendedStaticListExample |
| jquery.autosuggest.js:422-424 | a single-part provider name calls `window[provider]`, where `provider` is the never-assigned module variable | any provider name without a dot: window["undefined"] is not a function | the configured provider is called | high, not executed | Source.SingleNameProviderThrows | Source.ResolveIntended |

The corrected members are used by `AutoSuggest.DoSuggestIntended` and `AutoSuggest.KeyUpIntended`.
These fix all four findings together.
Every other member models the code as written.

## Left out

- The query is treated as literal text. Regular-expression metacharacters, which the code does not escape, are not given their regex meaning. An invalid pattern makes `new RegExp` throw, and that is not modelled.
- Case folding covers ASCII letters only. JavaScript's `i` flag also folds other letters, and JavaScript strings are UTF-16 code units.
- DOM construction, styling and positioning are rendering I/O: `createDropdown`, the markup of `showSuggestions`, `getLeft`/`getTop`, the visibility style, and `highlightSuggestion` class names.
- jQuery event binding and the mouse handlers are left out. Mouse-over highlights an item without changing `current`. Mouse-down copies the item's text into the input and hides the list.
- `$.ajax`, `localStorage` and `navigator.onLine` are inputs: the `Env` record and the `Fetch` outcome. A request is not modelled, and neither is its error callback, which only logs.
- The `ajaxurl` the request uses is a global the code never declares. Whether the request is actually issued depends on that global, and this is not modelled.
- Dates are integer milliseconds. The `JSON.stringify`/`JSON.parse` round trip of the stored data is taken as the identity.
- `Source.Resolve`: for provider names of 2 to 4 parts, the `window[...]` lookup and the provider's return value are an input (`providerResult`).
- `doSuggest` is modelled as running to the end once `getData` returns. Overlapping requests are not modelled.
- Only the `setSelectionRange` branch of `typeAhead` is modelled. The branch needs the `createTextRange` or `setSelectionRange` capability, which is taken as present.
- Console logging is not modelled.
- A browser without `localStorage` is not modelled faithfully. There `window.localStorage` is `undefined`, which passes the test `store !== null` (jquery.autosuggest.js:440), so `store.getItem` throws a `TypeError` (jquery.autosuggest.js:443). The model's `storeAvailable = false` instead takes the no-storage branch, as it would for a `null` store.
- A `null` element in a stored, fetched or provider array makes `items[item].first_name` throw a `TypeError` (jquery.autosuggest.js:570). `Candidate` has no `null` case, so this throw is not modelled.
- One widget per page. `textbox`, `provider`, `layer`, `eventObject` and `current` are module-level variables shared by every `.autosuggest()` call (jquery.autosuggest.js:17-37). `current = -1` runs once, when the script loads, and each `createDropdown` replaces `layer` (jquery.autosuggest.js:276). A second widget would therefore start with the first one's cursor and navigate the newest dropdown. That sharing is not modelled.

=== FILE: autosuggest.dfy ===
/** The plugin's event handlers put together (`doSuggest`, the key-up,
    key-down and blur listeners in jquery.autosuggest.js): a released
    character key looks candidates up, matches the input against them, types
    ahead the first suggestion and shows the list, or hides it when nothing
    matches. */
module AutoSuggest {
  import opened Wrappers
  import opened Matcher
  import opened Keys
  import opened Cursor
  import opened Selection
  import opened Source

  /** The plugin's options: `typeAhead` and the data-source options. */
  datatype Settings = Settings(typeAhead: bool, source: Config)

  /** The widget after an event, and the type-ahead edit if one was made. */
  datatype Reaction = Reaction(w: Widget, edit: Option<Edit>)

  /** `doSuggest(typeahead)` given what `getData` returned. `None` makes the
      read of `items.length` throw, and the event ends with nothing changed;
      an empty array does nothing either. */
  function DoSuggest(w: Widget, typeahead: bool, settingTypeAhead: bool,
                     items: Option<seq<Candidate>>): (r: Reaction)
    ensures r.edit.Some? ==> typeahead && settingTypeAhead
    ensures (items.None? || |items.value| == 0) ==> r == Reaction(w, None)
    ensures r.w.current == w.current
  {
    match items
    case None => Reaction(w, None)
    case Some(xs) =>
      if |xs| == 0 then Reaction(w, None)
      else
        var suggestions := FindSuggestions(w.value, xs);
        if |suggestions| > 0 then
          if typeahead && settingTypeAhead then
            var e := TypeAhead(w.value, suggestions[0]);
            Reaction(Show(w.(value := e.value), suggestions), Some(e))
          else Reaction(Show(w, suggestions), None)
        else Reaction(Hide(w), None)
  }

  /** The key-up listener: classify the key, and for a character key run
      `doSuggest` on what `getData` returns for the current value.
      `providerResult` is what the configured provider function returns. */
  function KeyUp(w: Widget, code: int, settings: Settings, env: Env,
                 providerResult: Option<seq<Candidate>>): (r: Reaction)
    ensures !ClassifyKey(code).character ==> r == Reaction(w, None)
    ensures r.edit.Some? ==> settings.typeAhead && code != Backspace && code != Delete
    ensures r.w.current == w.current
  {
    var keyed := ClassifyKey(code);
    if keyed.character then
      var items := Resolve(settings.source, env, w.value, providerResult);
      DoSuggest(w, keyed.typeAhead, settings.typeAhead, items)
    else Reaction(w, None)
  }

  /** The blur listener. */
  function Blur(w: Widget): (w': Widget)
    ensures !w'.visible && w'.shown == w.shown && w'.current == w.current && w'.value == w.value
  {
    Hide(w)
  }

  // ---------------------------------------------------------------------
  // Properties

  /** What `doSuggest` does with a non-empty array: the suggestions are the
      matcher's result; a non-empty result is shown with the cursor left as
      it was, and typed ahead exactly when both type-ahead flags are set; an
      empty result only hides the list. */
  lemma DoSuggestShowsMatches(w: Widget, typeahead: bool, setting: bool, xs: seq<Candidate>)
    requires |xs| > 0
    ensures var r := DoSuggest(w, typeahead, setting, Some(xs));
      var suggestions := FindSuggestions(w.value, xs);
      && (|suggestions| > 0 ==>
            && r.w.shown == suggestions && r.w.visible && r.w.current == w.current
            && (r.edit.Some? <==> typeahead && setting)
            && r.w.value == (if typeahead && setting then suggestions[0] else w.value))
      && (|suggestions| == 0 ==> r == Reaction(Hide(w), None))
  {
  }

  /** Type-ahead only happens for a non-empty result, and then it writes the
      first suggestion and selects everything after the typed length: the
      first suggestion contains what was typed, so it is at least as long. */
  lemma TypeAheadSelectsUntypedPart(w: Widget, typeahead: bool, setting: bool,
                                    items: Option<seq<Candidate>>)
    requires DoSuggest(w, typeahead, setting, items).edit.Some?
    ensures var r := DoSuggest(w, typeahead, setting, items);
      var e := r.edit.value;
      && typeahead && setting && items.Some? && |r.w.shown| > 0
      && e.value == r.w.value == r.w.shown[0]
      && Contains(e.value, w.value)
      && e.start == |w.value| && e.end == |e.value|
  {
    var xs := items.value;
    var suggestions := FindSuggestions(w.value, xs);
    FindSuggestionsSound(w.value, xs);
    ContainsLength(suggestions[0], w.value);
  }

  /** Keys that are not characters leave the widget as it is. */
  lemma IgnoredKeysDoNothing(w: Widget, code: int, settings: Settings, env: Env,
                             pr: Option<seq<Candidate>>)
    requires IgnoredKey(code)
    ensures KeyUp(w, code, settings, env, pr) == Reaction(w, None)
  {
    ClassifyKeyClasses(code);
  }

  /** Backspace and delete look suggestions up but never type ahead. */
  lemma EditingKeysNeverTypeAhead(w: Widget, settings: Settings, env: Env,
                                  pr: Option<seq<Candidate>>)
    ensures KeyUp(w, Backspace, settings, env, pr).edit.None?
    ensures KeyUp(w, Delete, settings, env, pr).edit.None?
  {
  }

  /** While the data must still be fetched, a key-up changes nothing. */
  lemma FetchShowsNothing(w: Widget, code: int, settings: Settings, env: Env,
                          pr: Option<seq<Candidate>>)
    requires Decide(settings.source, env).Fetch?
    ensures KeyUp(w, code, settings, env, pr) == Reaction(w, None)
  {
  }

  // ---------------------------------------------------------------------
  // The static list, as written and as evidently intended

  /** Matching plain strings yields nothing but "undefined undefined". */
  lemma {:induction false} ScanOfPlain(q: string, xs: seq<string>, lastIndex: nat)
    ensures forall i :: 0 <= i < |Scan(q, AsPlain(xs), lastIndex)| ==>
              Scan(q, AsPlain(xs), lastIndex)[i] == UndefinedPair
    decreases |xs|
  {
    if |xs| > 0 {
      var items := AsPlain(xs);
      var t := Test(q, lastIndex, Project(items[0]));
      assert items[1..] == AsPlain(xs[1..]);
      ScanOfPlain(q, xs[1..], t.lastIndex);
    }
  }

  /** As written, a static list is matched twice: `getData` returns the
      matched display strings and `doSuggest` matches those again, reading
      `first_name` and `last_name` of a string. The list shown, if any, is
      therefore made of "undefined undefined" only. */
  lemma StaticListShowsOnlyUndefined(w: Widget, code: int, settings: Settings, env: Env,
                                     pr: Option<seq<Candidate>>)
    requires Decide(settings.source, env) == MatchList
    ensures var r := KeyUp(w, code, settings, env, pr);
      r.w.shown != w.shown ==> forall i :: 0 <= i < |r.w.shown| ==> r.w.shown[i] == UndefinedPair
  {
    var keyed := ClassifyKey(code);
    if keyed.character {
      var first := FindSuggestions(w.value, settings.source.suggestionsList.value);
      if |first| > 0 && |w.value| > 0 {
        ScanOfPlain(w.value, first, 0);
      }
    }
  }

  /** "ann" finds no occurrence in "undefined undefined". */
  lemma AnnNotInUndefined()
    ensures !Contains(UndefinedPair, "ann")
  {
    var s := UndefinedPair;
    assert s == "undefined undefined";
    assert forall i :: 0 <= i < |s| ==> s[i] != 'a' && s[i] != 'A';
    forall p | 0 <= p < |s|
      ensures !MatchesAt(s, "ann", p)
    {
      assert Fold(s[p]) != 'a';
      assert Fold("ann"[0]) == 'a';
      assert s[p + 0] == s[p];
    }
  }

  /** The static list ["Ann Lee"] and the typed value "ann": as written the
      list is hidden, not shown. */
  lemma StaticListExample(env: Env, pr: Option<seq<Candidate>>)
    ensures var settings := Settings(true, Config(None, Some([Person("Ann", "Lee")]), None, true));
      var w := Show(Attach("ann"), []);
      KeyUp(w, 'N' as int, settings, env, pr) == Reaction(Hide(w), None)
  {
    var items := [Plain("Ann Lee")];
    assert Project(Person("Ann", "Lee")) == "Ann Lee";
    assert MatchesAt("Ann Lee", "ann", 0);
    assert Test("ann", 0, "Ann Lee").matched;
    assert FindSuggestions("ann", [Person("Ann", "Lee")]) == ["Ann Lee"];
    assert AsPlain(["Ann Lee"]) == items;
    AnnNotInUndefined();
    assert FindSuggestions("ann", items) == [];
  }

  /** `doSuggest` as evidently intended: the complete matcher, and a new
      list starts with nothing highlighted. */
  function DoSuggestIntended(w: Widget, typeahead: bool, settingTypeAhead: bool,
                             items: Option<seq<Candidate>>): (r: Reaction)
    ensures r.edit.Some? ==> typeahead && settingTypeAhead
    ensures r.w.current == w.current || (r.w.current == -1 && r.w.visible)
  {
    match items
    case None => Reaction(w, None)
    case Some(xs) =>
      if |xs| == 0 then Reaction(w, None)
      else
        var suggestions := FindAll(w.value, xs);
        if |suggestions| > 0 then
          if typeahead && settingTypeAhead then
            var e := TypeAhead(w.value, suggestions[0]);
            Reaction(ShowReset(w.(value := e.value), suggestions), Some(e))
          else Reaction(ShowReset(w, suggestions), None)
        else Reaction(Hide(w), None)
  }

  /** The key-up listener as evidently intended. */
  function KeyUpIntended(w: Widget, code: int, settings: Settings, env: Env,
                         providerResult: Option<seq<Candidate>>): (r: Reaction)
    ensures !ClassifyKey(code).character ==> r == Reaction(w, None)
    ensures r.edit.Some? ==> settings.typeAhead && code != Backspace && code != Delete
  {
    var keyed := ClassifyKey(code);
    if keyed.character then
      var items := ResolveIntended(settings.source, env, providerResult);
      DoSuggestIntended(w, keyed.typeAhead, settings.typeAhead, items)
    else Reaction(w, None)
  }

  /** With the corrections, a character key on a static list shows every
      display string that contains the typed value, in list order, with
      nothing highlighted; with nothing to show, the list is hidden. */
  lemma IntendedStaticListShowsAllMatches(w: Widget, code: int, settings: Settings, env: Env,
                                          pr: Option<seq<Candidate>>)
    requires Decide(settings.source, env) == MatchList
    requires ClassifyKey(code).character && |settings.source.suggestionsList.value| > 0
    ensures var r := KeyUpIntended(w, code, settings, env, pr);
      var all := FindAll(w.value, settings.source.suggestionsList.value);
      && (|all| > 0 ==> r.w.shown == all && r.w.visible && r.w.current == -1)
      && (|all| == 0 ==> r == Reaction(Hide(w), None))
  {
  }

  /** The same example with the corrections: "Ann Lee" is shown. */
  lemma IntendedStaticListExample(env: Env, pr: Option<seq<Candidate>>)
    ensures var settings := Settings(false, Config(None, Some([Person("Ann", "Lee")]), None, true));
      var w := Attach("ann");
      KeyUpIntended(w, 'N' as int, settings, env, pr).w == ShowReset(w, ["Ann Lee"])
  {
    var items := [Person("Ann", "Lee")];
    assert MatchesAt("Ann Lee", "ann", 0);
    assert Hits("ann", items) == [true];
    assert Project(items[0]) == "Ann Lee";
    assert Projections(items[1..]) == [];
    assert Projections(items) == ["Ann Lee"];
    assert FindAll("ann", items) == ["Ann Lee"];
  }
}

=== FILE: cursor.dfy ===
/** The suggestion cursor (`current`, `nextSuggestion`, `previousSuggestion`,
    `handleKeydown`, `showSuggestions`, `hideSuggestions` in
    jquery.autosuggest.js).

    The state is the input's value, the list last rendered into the dropdown
    (its child nodes), whether the dropdown is visible, and the module-level
    integer `current`. Hiding only changes visibility: the rendered list stays,
    and nothing ever sets `current` back to -1. */
module Cursor {

  datatype Widget = Widget(value: string, shown: seq<string>, visible: bool, current: int)

  /** The widget right after the first attachment on a page: an empty,
      hidden dropdown and `current` at its load-time value -1. (`current` is
      a module-level variable, so a later attachment would inherit it.) */
  function Attach(value: string): (w: Widget)
    ensures Valid(w) && w.shown == [] && !w.visible && w.value == value
    ensures w.current == -1
  {
    Widget(value, [], false, -1)
  }

  /** The invariant every reachable widget keeps: the cursor is never below -1. */
  predicate Valid(w: Widget) {
    w.current >= -1
  }

  /** The cursor designates one of the rendered suggestions. */
  predicate OnItem(w: Widget) {
    0 <= w.current < |w.shown|
  }

  /** `nextSuggestion`: with at least one node and the cursor below the last
      one, pre-increment the cursor and copy that node's text into the input.
      (An index below 0, impossible from a valid state, reads `undefined` and
      throws after the increment, leaving the value.) */
  function Next(w: Widget): (w': Widget)
    ensures w'.shown == w.shown && w'.visible == w.visible
    ensures w'.current == w.current || w'.current == w.current + 1 <= |w.shown| - 1
    ensures w'.value != w.value ==> OnItem(w') && w'.value == w.shown[w'.current]
  {
    if |w.shown| > 0 && w.current < |w.shown| - 1 then
      var c := w.current + 1;
      if 0 <= c then w.(current := c, value := w.shown[c]) else w.(current := c)
    else w
  }

  /** `previousSuggestion`: with at least one node and the cursor above 0,
      pre-decrement the cursor and copy that node's text into the input. A
      cursor left beyond a shorter list reads `undefined` and throws after the
      decrement, so only the cursor changes. */
  function Previous(w: Widget): (w': Widget)
    ensures w'.shown == w.shown && w'.visible == w.visible
    ensures w'.current == w.current || 0 <= w'.current == w.current - 1
    ensures w'.value != w.value ==> OnItem(w') && w'.value == w.shown[w'.current]
  {
    if |w.shown| > 0 && w.current > 0 then
      var c := w.current - 1;
      if c < |w.shown| then w.(current := c, value := w.shown[c]) else w.(current := c)
    else w
  }

  /** `hideSuggestions`: only the visibility changes. */
  function Hide(w: Widget): (w': Widget)
    ensures !w'.visible
    ensures w'.shown == w.shown && w'.current == w.current && w'.value == w.value
  {
    w.(visible := false)
  }

  /** `showSuggestions`: the dropdown is rebuilt from `list` and made visible.
      The cursor is left where it was. */
  function Show(w: Widget, list: seq<string>): (w': Widget)
    ensures w'.visible && w'.shown == list
    ensures w'.current == w.current && w'.value == w.value
  {
    w.(shown := list, visible := true)
  }

  const UpArrow: int := 38
  const DownArrow: int := 40
  const Enter: int := 13

  /** `handleKeydown`: up, down and enter; every other key leaves the widget. */
  function KeyDown(w: Widget, code: int): (w': Widget)
    ensures w'.shown == w.shown
    ensures w.current - 1 <= w'.current <= w.current + 1
    ensures w'.value != w.value ==> OnItem(w') && w'.value == w.shown[w'.current]
  {
    if code == UpArrow then Previous(w)
    else if code == DownArrow then Next(w)
    else if code == Enter then Hide(w)
    else w
  }

  // ---------------------------------------------------------------------
  // Properties

  /** Down arrow: moves by exactly one and copies the new item exactly when
      the list is non-empty and the cursor is below its last index; otherwise
      nothing changes. The list and the visibility never change. */
  lemma NextMoves(w: Widget)
    requires Valid(w)
    ensures var w' := Next(w);
      && w'.shown == w.shown && w'.visible == w.visible
      && ((|w.shown| > 0 && w.current < |w.shown| - 1) ==>
            w'.current == w.current + 1 && OnItem(w') && w'.value == w.shown[w'.current])
      && (!(|w.shown| > 0 && w.current < |w.shown| - 1) ==> w' == w)
  {
  }

  /** Up arrow: with a non-empty list and the cursor above 0 it moves by
      exactly one; the new item is copied into the input when it lies inside
      the list, and a stale cursor past the list's end reads no item and
      leaves the value. At a cursor of 0 or -1 it does nothing: no
      wrap-around, no exit to -1. */
  lemma PreviousMoves(w: Widget)
    ensures var w' := Previous(w);
      && w'.shown == w.shown && w'.visible == w.visible
      && ((|w.shown| > 0 && w.current > 0) ==>
            && w'.current == w.current - 1
            && (w'.current < |w.shown| ==> OnItem(w') && w'.value == w.shown[w'.current])
            && (w'.current >= |w.shown| ==> w'.value == w.value))
      && (w.current <= 0 ==> w' == w)
  {
  }

  /** Every key-down, hide and show keeps the cursor at -1 or above. */
  lemma KeyDownKeepsValid(w: Widget, code: int, list: seq<string>)
    requires Valid(w)
    ensures Valid(KeyDown(w, code))
    ensures Valid(Hide(w)) && Valid(Show(w, list))
  {
  }

  /** Down then up returns to the item the cursor was on, with its text in
      the input. */
  lemma NextThenPrevious(w: Widget)
    requires OnItem(w) && w.current < |w.shown| - 1
    ensures Previous(Next(w)) == w.(value := w.shown[w.current])
  {
  }

  /** Up then down returns to the item the cursor was on. */
  lemma PreviousThenNext(w: Widget)
    requires OnItem(w) && w.current > 0
    ensures Next(Previous(w)) == w.(value := w.shown[w.current])
  {
  }

  /** Pressing down `n` times. */
  function NextN(w: Widget, n: nat): (w': Widget)
    decreases n
  {
    if n == 0 then w else NextN(Next(w), n - 1)
  }

  /** Pressing down `n` times from a cursor inside [-1, count-1] stops at the
      last item: the cursor is min(current + n, count - 1), and the input
      holds that item once the cursor has moved. */
  lemma {:induction false} NextNStopsAtLast(w: Widget, n: nat)
    requires Valid(w) && w.current <= |w.shown| - 1
    ensures var w' := NextN(w, n);
      && w'.current == (if w.current + n < |w.shown| - 1 then w.current + n else |w.shown| - 1)
      && w'.shown == w.shown
      && (n > 0 && |w.shown| > 0 && w.current < |w.shown| - 1 ==> w'.value == w.shown[w'.current])
    decreases n
  {
    if n > 0 {
      NextMoves(w);
      NextNStopsAtLast(Next(w), n - 1);
      if |w.shown| > 0 && w.current < |w.shown| - 1 && n > 1 && Next(w).current == |w.shown| - 1 {
        NextNFixedAtLast(Next(w), n - 1);
      }
    }
  }

  /** At the last item (or on an empty list) pressing down changes nothing. */
  lemma {:induction false} NextNFixedAtLast(w: Widget, n: nat)
    requires w.current >= |w.shown| - 1
    ensures NextN(w, n) == w
    decreases n
  {
    if n > 0 {
      assert Next(w) == w;
      NextNFixedAtLast(w, n - 1);
    }
  }

  /** Enter only hides the dropdown, and the hidden list keeps answering
      the arrow keys, which still copy its items into the input. */
  lemma HiddenListStillNavigable(w: Widget)
    ensures KeyDown(w, Enter) == Hide(w)
    ensures Next(Hide(w)) == Hide(Next(w))
    ensures Previous(Hide(w)) == Hide(Previous(w))
  {
  }

  /** Keys other than up, down and enter leave the widget unchanged. */
  lemma OtherKeysIgnored(w: Widget, code: int)
    requires code != UpArrow && code != DownArrow && code != Enter
    ensures KeyDown(w, code) == w
  {
  }

  // ---------------------------------------------------------------------
  // The stale cursor, as written and as evidently intended

  /** As written: after moving to the third item of a three-item list, a new
      one-item list is shown; down arrow then does nothing (the cursor, 2, is
      not below 0), so down can never reach the new item. Up arrow moves the
      cursor to 1, past the list, reading no item; only a second up press
      reaches the new item. */
  lemma StaleCursorExample()
    ensures var w := Show(NextN(Show(Attach("a"), ["ab", "ac", "ad"]), 3), ["ae"]);
      && w.current == 2
      && Next(w) == w
      && Previous(w).current == 1 && !OnItem(Previous(w)) && Previous(w).value == w.value
      && Previous(Previous(w)).current == 0 && Previous(Previous(w)).value == "ae"
  {
    var w0 := Show(Attach("a"), ["ab", "ac", "ad"]);
    NextNStopsAtLast(w0, 3);
  }

  /** `showSuggestions` as evidently intended: a new list starts with nothing
      highlighted. */
  function ShowReset(w: Widget, list: seq<string>): (w': Widget)
    ensures w'.visible && w'.shown == list && w'.value == w.value
    ensures w'.current == -1
  {
    w.(shown := list, visible := true, current := -1)
  }

  /** With the reset, down arrow reaches the first item of any non-empty new
      list, whatever the cursor was, and `n` presses reach item min(n, count)-1. */
  lemma ShowResetReachesEveryItem(w: Widget, list: seq<string>, n: nat)
    requires |list| > 0 && 0 < n
    ensures var w' := NextN(ShowReset(w, list), n);
      && OnItem(w')
      && w'.current == (if n <= |list| then n - 1 else |list| - 1)
      && w'.value == list[w'.current]
  {
    NextNStopsAtLast(ShowReset(w, list), n);
  }
}

=== FILE: keys.dfy ===
/** Classification of key-up events (`handleKeyup` in jquery.autosuggest.js).
    The plugin asks two questions of every released key: does it change the
    text (and so trigger a suggestion lookup), and may the lookup type ahead? */
module Keys {

  /** The object `handleKeyup` returns. */
  datatype Keyed = Keyed(character: bool, typeAhead: bool)

  const Backspace: int := 8
  const Delete: int := 46
  const Space: int := 32

  /** The key code of a key-up event, classified exactly as the source's
      chain of `if`s does it. Key codes are JavaScript numbers; every
      integer is accepted. */
  function ClassifyKey(code: int): (k: Keyed)
    ensures k.typeAhead ==> k.character
  {
    if code == Backspace || code == Delete then
      Keyed(true, false)
    else if code < 32 || (33 <= code && code <= 46) || (112 <= code && code <= 123) then
      Keyed(false, false)
    else
      Keyed(true, true)
  }

  /** Codes that are neither text nor editing keys: control codes other than
      backspace, the navigation block 33..45 and the function keys F1..F12. */
  predicate IgnoredKey(code: int) {
    (code < Space && code != Backspace) || (33 <= code <= 45) || (112 <= code <= 123)
  }

  /** The three classes of key code, each stated as an equivalence. */
  lemma ClassifyKeyClasses(code: int)
    ensures ClassifyKey(code) == Keyed(true, false) <==> code == Backspace || code == Delete
    ensures ClassifyKey(code) == Keyed(false, false) <==> IgnoredKey(code)
    ensures ClassifyKey(code) == Keyed(true, true) <==>
              !IgnoredKey(code) && code != Backspace && code != Delete
  {
  }

  /** Space is an ordinary character: it triggers lookup and type-ahead. */
  lemma SpaceTypesAhead()
    ensures ClassifyKey(Space) == Keyed(true, true)
  {
  }

  /** Only backspace and delete trigger a lookup without type-ahead. */
  lemma EditingKeysSuppressTypeAhead(code: int)
    ensures ClassifyKey(code).character && !ClassifyKey(code).typeAhead <==>
              code == Backspace || code == Delete
  {
  }
}

=== FILE: matcher.dfy ===
/** The suggestion matcher (`findSuggestions` in jquery.autosuggest.js).

    Every candidate record is projected to `first_name + " " + last_name` and
    tested against `new RegExp(input, "gi")`. The query is modelled as literal
    text compared case-insensitively (ASCII letters). Because of the `g` flag,
    `test` is stateful: a success leaves `lastIndex` at the end of the match,
    so the NEXT candidate is searched only from that position on, and a
    failure resets `lastIndex` to 0. The model threads `lastIndex` through the
    scan, which is why a candidate that contains the query can be skipped. */
module Matcher {
  import opened Wrappers

  /** One element of the candidate array. A record has the two fields the
      projection reads; `Plain` is any other non-null element (a plain
      string, as a JSON payload of strings or an earlier result list
      contains), which has neither field. */
  datatype Candidate = Person(firstName: string, lastName: string) | Plain(text: string)

  /** What JavaScript prints for a missing property in a string concatenation. */
  const Undefined: string := "undefined"

  /** The display string of every non-record candidate. */
  const UndefinedPair: string := Undefined + " " + Undefined

  /** `items[item].first_name + " " + items[item].last_name` */
  function Project(c: Candidate): (s: string) {
    match c
    case Person(f, l) => f + " " + l
    case Plain(_) => UndefinedPair
  }

  /** A record projects to its first name, one space and its last name, in
      that order; any other element has neither field and projects to
      "undefined undefined". */
  lemma ProjectParts(c: Candidate)
    ensures c.Person? ==>
              && |Project(c)| == |c.firstName| + 1 + |c.lastName|
              && Project(c)[..|c.firstName|] == c.firstName
              && Project(c)[|c.firstName|] == ' '
              && Project(c)[|c.firstName| + 1..] == c.lastName
    ensures c.Plain? ==> Project(c) == UndefinedPair == "undefined undefined"
  {
  }

  /** The projections of a whole pool, in pool order. */
  function Projections(items: seq<Candidate>): (r: seq<string>)
    ensures |r| == |items|
    ensures forall i :: 0 <= i < |items| ==> r[i] == Project(items[i])
  {
    if |items| == 0 then [] else [Project(items[0])] + Projections(items[1..])
  }

  /** ASCII case folding, the part of the `i` flag this model covers. */
  function Fold(c: char): (r: char)
    ensures 'A' <= c <= 'Z' ==> 'a' <= r <= 'z' && r as int == c as int + 32
    ensures !('A' <= c <= 'Z') ==> r == c
    ensures !('A' <= r <= 'Z')
  {
    if 'A' <= c <= 'Z' then (c as int + 32) as char else c
  }

  /** Folding is idempotent and maps an upper-case letter and its lower-case
      partner to the same character. */
  lemma FoldIgnoresCase(c: char)
    ensures Fold(Fold(c)) == Fold(c)
    ensures 'a' <= c <= 'z' ==> Fold((c as int - 32) as char) == c && Fold(c) == c
  {
  }

  /** The query `q` occurs in `s` at position `p`, ignoring case. */
  predicate MatchesAt(s: string, q: string, p: int) {
    0 <= p && p + |q| <= |s| && forall k :: 0 <= k < |q| ==> Fold(s[p + k]) == Fold(q[k])
  }

  /** `s` contains `q` somewhere, ignoring case. */
  ghost predicate Contains(s: string, q: string) {
    exists p :: MatchesAt(s, q, p)
  }

  /** A string containing the query is at least as long as the query. */
  lemma ContainsLength(s: string, q: string)
    requires Contains(s, q)
    ensures |q| <= |s|
  {
  }

  /** The leftmost occurrence of `q` in `s` at or after `from`: the search a
      global RegExp performs starting at its `lastIndex`. */
  function Search(s: string, q: string, from: nat): (r: Option<nat>)
    decreases |s| - from
    ensures r.Some? ==> from <= r.value && MatchesAt(s, q, r.value)
    ensures r.Some? ==> forall p :: from <= p < r.value ==> !MatchesAt(s, q, p)
    ensures r.None? ==> forall p :: from <= p ==> !MatchesAt(s, q, p)
  {
    if from + |q| > |s| then None
    else if MatchesAt(s, q, from) then Some(from)
    else Search(s, q, from + 1)
  }

  /** The outcome of one `regex.test(string)` call: whether it matched, and
      the regex's `lastIndex` afterwards. */
  datatype TestResult = TestResult(matched: bool, lastIndex: nat)

  /** `regex.test(s)` on a global regex whose `lastIndex` is `lastIndex`.
      A `lastIndex` past the end of `s` finds nothing, as the search does. */
  function Test(q: string, lastIndex: nat, s: string): (t: TestResult)
    ensures !t.matched ==> t.lastIndex == 0
    ensures t.matched ==> lastIndex + |q| <= t.lastIndex <= |s|
    ensures t.matched ==> MatchesAt(s, q, t.lastIndex - |q|)
    ensures t.matched ==> forall p :: lastIndex <= p < t.lastIndex - |q| ==> !MatchesAt(s, q, p)
  {
    match Search(s, q, lastIndex)
    case Some(p) => TestResult(true, p + |q|)
    case None => TestResult(false, 0)
  }

  /** A test succeeds exactly when the query occurs at or after `lastIndex`,
      and a success leaves `lastIndex` at the end of the leftmost such
      occurrence. */
  lemma TestFinds(q: string, lastIndex: nat, s: string)
    ensures Test(q, lastIndex, s).matched <==> exists p :: lastIndex <= p && MatchesAt(s, q, p)
    ensures Test(q, lastIndex, s).matched ==> MatchesAt(s, q, Test(q, lastIndex, s).lastIndex - |q|)
    ensures Test(q, lastIndex, s).matched ==>
              forall p :: lastIndex <= p < Test(q, lastIndex, s).lastIndex - |q| ==>
                !MatchesAt(s, q, p)
  {
  }

  /** The `for` loop of `findSuggestions`, with the regex's `lastIndex`
      carried from one candidate to the next. */
  function Scan(q: string, items: seq<Candidate>, lastIndex: nat): (r: seq<string>)
    decreases |items|
    ensures |r| <= |items|
  {
    if |items| == 0 then []
    else
      var s := Project(items[0]);
      var t := Test(q, lastIndex, s);
      (if t.matched then [s] else []) + Scan(q, items[1..], t.lastIndex)
  }

  /** `findSuggestions(input, items)`: nothing for an empty input, otherwise
      the scan above with a fresh regex (`lastIndex` 0). */
  function FindSuggestions(input: string, items: seq<Candidate>): (r: seq<string>)
    ensures |r| <= |items|
    ensures |input| == 0 ==> r == []
  {
    if |input| > 0 then Scan(input, items, 0) else []
  }

  /** Every string the scan keeps contains the query, ignoring case. */
  lemma {:induction false} ScanSound(q: string, items: seq<Candidate>, lastIndex: nat)
    ensures forall i :: 0 <= i < |Scan(q, items, lastIndex)| ==>
              Contains(Scan(q, items, lastIndex)[i], q)
    decreases |items|
  {
    if |items| > 0 {
      var s := Project(items[0]);
      var t := Test(q, lastIndex, s);
      TestFinds(q, lastIndex, s);
      ScanSound(q, items[1..], t.lastIndex);
    }
  }

  /** Every suggestion contains the input, ignoring case. */
  lemma FindSuggestionsSound(input: string, items: seq<Candidate>)
    ensures forall i :: 0 <= i < |FindSuggestions(input, items)| ==>
              Contains(FindSuggestions(input, items)[i], input)
  {
    if |input| > 0 {
      ScanSound(input, items, 0);
    }
  }

  // ---------------------------------------------------------------------
  // Order-preserving subsequences

  /** The elements of `b` whose flag in `mask` is set, in order. */
  function Select<T>(b: seq<T>, mask: seq<bool>): (r: seq<T>)
    requires |mask| == |b|
    ensures |r| <= |b|
  {
    if |b| == 0 then [] else (if mask[0] then [b[0]] else []) + Select(b[1..], mask[1..])
  }

  /** `a` is `b` with some elements left out and the rest in their order. */
  ghost predicate IsSubsequence<T>(a: seq<T>, b: seq<T>) {
    exists mask: seq<bool> :: |mask| == |b| && Select(b, mask) == a
  }

  // ---------------------------------------------------------------------
  // The per-candidate trace of the scan

  /** The result of every `test` call of the scan, in pool order. */
  function Trace(q: string, items: seq<Candidate>, lastIndex: nat): (r: seq<TestResult>)
    decreases |items|
    ensures |r| == |items|
  {
    if |items| == 0 then []
    else
      var t := Test(q, lastIndex, Project(items[0]));
      [t] + Trace(q, items[1..], t.lastIndex)
  }

  /** Which candidates the scan keeps. */
  function Verdicts(tr: seq<TestResult>): (r: seq<bool>)
    ensures |r| == |tr|
    ensures forall i :: 0 <= i < |tr| ==> r[i] == tr[i].matched
  {
    if |tr| == 0 then [] else [tr[0].matched] + Verdicts(tr[1..])
  }

  /** The regex's `lastIndex` just before candidate `i` is tested. */
  function LastIndexBefore(q: string, items: seq<Candidate>, lastIndex: nat, i: nat): (n: nat)
    requires i < |items|
  {
    if i == 0 then lastIndex else Trace(q, items, lastIndex)[i - 1].lastIndex
  }

  /** Candidate `i` is tested with the `lastIndex` the previous test left. */
  lemma {:induction false} TraceStep(q: string, items: seq<Candidate>, lastIndex: nat, i: nat)
    requires i < |items|
    ensures Trace(q, items, lastIndex)[i]
              == Test(q, LastIndexBefore(q, items, lastIndex, i), Project(items[i]))
    decreases i
  {
    var t := Test(q, lastIndex, Project(items[0]));
    var rest := Trace(q, items[1..], t.lastIndex);
    assert Trace(q, items, lastIndex) == [t] + rest;
    if i > 0 {
      TraceStep(q, items[1..], t.lastIndex, i - 1);
      assert items[1..][i - 1] == items[i];
      if i > 1 {
        assert Trace(q, items, lastIndex)[i - 1] == rest[i - 2];
      }
    }
  }

  /** The scan keeps exactly the candidates its trace marks as matched. */
  lemma {:induction false} ScanSelectsVerdicts(q: string, items: seq<Candidate>, lastIndex: nat)
    ensures Scan(q, items, lastIndex)
              == Select(Projections(items), Verdicts(Trace(q, items, lastIndex)))
    decreases |items|
  {
    if |items| > 0 {
      var t := Test(q, lastIndex, Project(items[0]));
      ScanSelectsVerdicts(q, items[1..], t.lastIndex);
      var tr := Trace(q, items, lastIndex);
      assert tr[1..] == Trace(q, items[1..], t.lastIndex);
      assert Verdicts(tr)[1..] == Verdicts(tr[1..]);
      assert Projections(items)[1..] == Projections(items[1..]);
    }
  }

  /** The result is an order-preserving subsequence of the projections. */
  lemma FindSuggestionsIsSubsequence(input: string, items: seq<Candidate>)
    ensures IsSubsequence(FindSuggestions(input, items), Projections(items))
  {
    if |input| > 0 {
      ScanSelectsVerdicts(input, items, 0);
      var mask := Verdicts(Trace(input, items, 0));
      assert Select(Projections(items), mask) == FindSuggestions(input, items);
    } else {
      var mask := seq(|items|, _ => false);
      SelectNone(Projections(items), mask);
    }
  }

  lemma {:induction false} SelectNone<T>(b: seq<T>, mask: seq<bool>)
    requires |mask| == |b|
    requires forall i :: 0 <= i < |mask| ==> !mask[i]
    ensures Select(b, mask) == []
    decreases |b|
  {
    if |b| > 0 {
      SelectNone(b[1..], mask[1..]);
    }
  }

  /** Candidate `i` of a non-empty query is kept exactly when its projection
      contains the query at or after the `lastIndex` left by candidate i-1. */
  lemma KeptIff(input: string, items: seq<Candidate>, i: nat)
    requires |input| > 0 && i < |items|
    ensures Trace(input, items, 0)[i].matched <==>
              exists p :: LastIndexBefore(input, items, 0, i) <= p &&
                MatchesAt(Project(items[i]), input, p)
  {
    TraceStep(input, items, 0, i);
    TestFinds(input, LastIndexBefore(input, items, 0, i), Project(items[i]));
  }

  /** The first candidate, and every candidate right after a rejected one,
      is tested from position 0: it is kept exactly when it contains the query. */
  lemma KeptAfterMissIff(input: string, items: seq<Candidate>, i: nat)
    requires |input| > 0 && i < |items|
    requires i == 0 || !Trace(input, items, 0)[i - 1].matched
    ensures Trace(input, items, 0)[i].matched <==> Contains(Project(items[i]), input)
  {
    if i > 0 {
      LastIndexResetAfterMiss(input, items, i);
    }
    TraceStep(input, items, 0, i);
    TestFromStart(input, Project(items[i]));
  }

  /** A rejected candidate leaves `lastIndex` at 0 for the next one. */
  lemma LastIndexResetAfterMiss(q: string, items: seq<Candidate>, i: nat)
    requires 0 < i < |items|
    requires !Trace(q, items, 0)[i - 1].matched
    ensures LastIndexBefore(q, items, 0, i) == 0
  {
    TraceStep(q, items, 0, i - 1);
  }

  /** A regex whose `lastIndex` is 0 finds the query wherever it occurs. */
  lemma TestFromStart(q: string, s: string)
    ensures Test(q, 0, s).matched <==> Contains(s, q)
  {
    TestFinds(q, 0, s);
    if Contains(s, q) {
      var p :| MatchesAt(s, q, p);
      assert 0 <= p;
    }
  }

  /** A candidate right after a kept one is searched only from where that
      match ended: it is skipped whenever its only occurrences start earlier. */
  lemma SkippedAfterHit(input: string, items: seq<Candidate>, i: nat)
    requires |input| > 0 && 0 < i < |items|
    requires Trace(input, items, 0)[i - 1].matched
    requires forall p :: Trace(input, items, 0)[i - 1].lastIndex <= p ==>
               !MatchesAt(Project(items[i]), input, p)
    ensures !Trace(input, items, 0)[i].matched
  {
    TraceStep(input, items, 0, i);
    TestFinds(input, LastIndexBefore(input, items, 0, i), Project(items[i]));
  }

  // ---------------------------------------------------------------------
  // The lastIndex carry-over, as written and as evidently intended

  /** A pool of three people, two named Ann(e). */
  const ExamplePool: seq<Candidate> :=
    [Person("Anne", "Smith"), Person("Ann", "Lee"), Person("Bob", "Anne")]

  /** As written, "Ann Lee" is skipped for the query "ann": the match in
      "Anne Smith" leaves `lastIndex` at 3, and "Ann Lee" has no occurrence
      from position 3 on. It does contain the query. */
  lemma SkippedMatchExample(q: string, pool: seq<Candidate>)
    requires q == "ann" && pool == ExamplePool
    ensures FindSuggestions(q, pool) == ["Anne Smith", "Bob Anne"]
    ensures Contains(Project(pool[1]), q)
  {
    ExampleProjections(pool);
    ExampleFirstTest(q, Project(pool[0]));
    ExampleSecondTest(q, Project(pool[1]));
    ExampleThirdTest(q, Project(pool[2]));
    ScanOfThree(q, pool);
    ExampleAnnLeeTest(q, Project(pool[1]));
    TestFromStart(q, Project(pool[1]));
  }

  /** The display strings of the example pool. */
  lemma ExampleProjections(pool: seq<Candidate>)
    requires pool == ExamplePool
    ensures |pool| == 3
    ensures Project(pool[0]) == "Anne Smith"
    ensures Project(pool[1]) == "Ann Lee"
    ensures Project(pool[2]) == "Bob Anne"
  {
  }

  /** The scan of a three-candidate pool whose second candidate is tested
      from a position after its only occurrences. */
  lemma ScanOfThree(q: string, pool: seq<Candidate>)
    requires |pool| == 3
    requires Test(q, 0, Project(pool[0])) == TestResult(true, 3)
    requires Test(q, 3, Project(pool[1])) == TestResult(false, 0)
    requires Test(q, 0, Project(pool[2])).matched
    ensures Scan(q, pool, 0) == [Project(pool[0]), Project(pool[2])]
  {
    assert pool == [pool[0]] + ([pool[1]] + ([pool[2]] + []));
    ScanCons(q, pool[2], [], Test(q, 3, Project(pool[1])).lastIndex);
    ScanCons(q, pool[1], [pool[2]], 3);
    ScanCons(q, pool[0], [pool[1]] + [pool[2]], 0);
  }

  /** One step of the scan. */
  lemma ScanCons(q: string, c: Candidate, rest: seq<Candidate>, lastIndex: nat)
    ensures var t := Test(q, lastIndex, Project(c));
      Scan(q, [c] + rest, lastIndex)
        == (if t.matched then [Project(c)] else []) + Scan(q, rest, t.lastIndex)
  {
    assert ([c] + rest)[1..] == rest;
  }

  lemma ExampleFirstTest(q: string, s: string)
    requires q == "ann" && s == "Anne Smith"
    ensures Test(q, 0, s) == TestResult(true, 3)
  {
    assert MatchesAt(s, q, 0);
  }

  lemma ExampleAnnLeeTest(q: string, s: string)
    requires q == "ann" && s == "Ann Lee"
    ensures Test(q, 0, s) == TestResult(true, 3)
  {
    assert MatchesAt(s, q, 0);
  }

  lemma ExampleSecondTest(q: string, s: string)
    requires q == "ann" && s == "Ann Lee"
    ensures Test(q, 3, s) == TestResult(false, 0)
  {
    assert Fold(s[3]) != Fold(q[0]);
    assert Fold(s[4]) != Fold(q[0]);
    assert !MatchesAt(s, q, 3);
    assert !MatchesAt(s, q, 4);
    assert Search(s, q, 5) == None;
  }

  lemma ExampleThirdTest(q: string, s: string)
    requires q == "ann" && s == "Bob Anne"
    ensures Test(q, 0, s) == TestResult(true, 7)
  {
    assert Fold(s[0]) != Fold(q[0]);
    assert Fold(s[1]) != Fold(q[0]);
    assert Fold(s[2]) != Fold(q[0]);
    assert Fold(s[3]) != Fold(q[0]);
    assert !MatchesAt(s, q, 0);
    assert !MatchesAt(s, q, 1);
    assert !MatchesAt(s, q, 2);
    assert !MatchesAt(s, q, 3);
    assert MatchesAt(s, q, 4);
    assert Search(s, q, 0) == Some(4);
  }

  /** Which candidates of the pool contain the query, tested one by one from
      position 0 (a regex without the `g` flag, or a fresh one per candidate). */
  function Hits(q: string, items: seq<Candidate>): (r: seq<bool>)
    ensures |r| == |items|
  {
    if |items| == 0 then []
    else [Test(q, 0, Project(items[0])).matched] + Hits(q, items[1..])
  }

  /** Flag i of the hits is set iff projection i contains the query. */
  lemma {:induction false} HitsIff(q: string, items: seq<Candidate>)
    ensures forall i :: 0 <= i < |items| ==> (Hits(q, items)[i] <==> Contains(Project(items[i]), q))
    decreases |items|
  {
    if |items| > 0 {
      HitsIff(q, items[1..]);
      TestFromStart(q, Project(items[0]));
      var h := Hits(q, items);
      assert h[1..] == Hits(q, items[1..]);
      forall i | 1 <= i < |items|
        ensures h[i] <==> Contains(Project(items[i]), q)
      {
        assert h[i] == h[1..][i - 1];
        assert items[i] == items[1..][i - 1];
      }
    }
  }

  /** The matcher as evidently intended: every projection that contains the
      query, in pool order; nothing for an empty query. */
  function FindAll(input: string, items: seq<Candidate>): (r: seq<string>)
    ensures |r| <= |items|
    ensures |input| == 0 ==> r == []
  {
    if |input| > 0 then Select(Projections(items), Hits(input, items)) else []
  }

  /** The intended matcher is a filter: over an empty pool it returns
      nothing, and a candidate in front is kept, ahead of the rest, if and
      only if its projection contains the query. */
  lemma FindAllFilters(input: string, c: Candidate, rest: seq<Candidate>)
    requires |input| > 0
    ensures FindAll(input, []) == []
    ensures FindAll(input, [c] + rest)
              == (if Contains(Project(c), input) then [Project(c)] else []) + FindAll(input, rest)
  {
    var items := [c] + rest;
    assert items[1..] == rest;
    HitsCons(input, c, rest);
    TestFromStart(input, Project(c));
    assert Projections(items)[1..] == Projections(rest);
    assert Hits(input, items)[1..] == Hits(input, rest);
  }

  /** The intended matcher finds "Ann Lee" too. */
  lemma FindAllExample(q: string, pool: seq<Candidate>)
    requires q == "ann" && pool == ExamplePool
    ensures FindAll(q, pool) == ["Anne Smith", "Ann Lee", "Bob Anne"]
  {
    ExampleProjections(pool);
    ExampleFirstTest(q, Project(pool[0]));
    ExampleAnnLeeTest(q, Project(pool[1]));
    ExampleThirdTest(q, Project(pool[2]));
    HitsOfThree(q, pool);
    var h := Hits(q, pool);
    assert h == [true, true, true];
    SelectAll(Projections(pool), h);
    ExampleProjectionList(pool);
  }

  lemma ExampleProjectionList(pool: seq<Candidate>)
    requires pool == ExamplePool
    ensures Projections(pool) == ["Anne Smith", "Ann Lee", "Bob Anne"]
  {
    ExampleProjections(pool);
  }

  /** The hits of a three-candidate pool all of whose candidates match. */
  lemma HitsOfThree(q: string, pool: seq<Candidate>)
    requires |pool| == 3
    requires Test(q, 0, Project(pool[0])).matched
    requires Test(q, 0, Project(pool[1])).matched
    requires Test(q, 0, Project(pool[2])).matched
    ensures Hits(q, pool) == [true, true, true]
  {
    assert pool == [pool[0]] + ([pool[1]] + ([pool[2]] + []));
    HitsCons(q, pool[2], []);
    HitsCons(q, pool[1], [pool[2]]);
    HitsCons(q, pool[0], [pool[1]] + [pool[2]]);
  }

  /** One step of the hits. */
  lemma HitsCons(q: string, c: Candidate, rest: seq<Candidate>)
    ensures Hits(q, [c] + rest) == [Test(q, 0, Project(c)).matched] + Hits(q, rest)
  {
    assert ([c] + rest)[1..] == rest;
  }

  lemma {:induction false} SelectAll<T>(b: seq<T>, mask: seq<bool>)
    requires |mask| == |b|
    requires forall i :: 0 <= i < |mask| ==> mask[i]
    ensures Select(b, mask) == b
    decreases |b|
  {
    if |b| > 0 {
      SelectAll(b[1..], mask[1..]);
    }
  }

  /** The positions of `Select(b, m2)` that `m1` keeps. */
  function SubMask(m1: seq<bool>, m2: seq<bool>): (m: seq<bool>)
    requires |m1| == |m2|
  {
    if |m2| == 0 then []
    else (if m2[0] then [m1[0]] else []) + SubMask(m1[1..], m2[1..])
  }

  /** Keeping fewer positions of `b` gives a subsequence of keeping more. */
  lemma {:induction false} SelectFewer<T>(b: seq<T>, m1: seq<bool>, m2: seq<bool>)
    requires |m1| == |b| && |m2| == |b|
    requires forall i :: 0 <= i < |b| ==> m1[i] ==> m2[i]
    ensures |SubMask(m1, m2)| == |Select(b, m2)|
    ensures Select(Select(b, m2), SubMask(m1, m2)) == Select(b, m1)
    decreases |b|
  {
    if |b| > 0 {
      SelectFewer(b[1..], m1[1..], m2[1..]);
      assert m1[0] ==> m2[0];
      assert Select(b, m1) == (if m1[0] then [b[0]] else []) + Select(b[1..], m1[1..]);
      var s2 := Select(b[1..], m2[1..]);
      var sm := SubMask(m1[1..], m2[1..]);
      if m2[0] {
        assert Select(b, m2) == [b[0]] + s2;
        assert SubMask(m1, m2) == [m1[0]] + sm;
        assert ([b[0]] + s2)[1..] == s2;
        assert ([m1[0]] + sm)[1..] == sm;
        assert Select([b[0]] + s2, [m1[0]] + sm)
                 == (if m1[0] then [b[0]] else []) + Select(s2, sm);
      } else {
        assert Select(b, m2) == s2;
        assert SubMask(m1, m2) == sm;
      }
    }
  }

  /** What the code returns is always an order-preserving subsequence of
      what the intended matcher returns: the carry-over only ever drops hits. */
  lemma FindSuggestionsWithinFindAll(input: string, items: seq<Candidate>)
    ensures IsSubsequence(FindSuggestions(input, items), FindAll(input, items))
  {
    if |input| > 0 {
      var b := Projections(items);
      var m1 := Verdicts(Trace(input, items, 0));
      var m2 := Hits(input, items);
      HitsIff(input, items);
      forall i | 0 <= i < |items|
        ensures m1[i] ==> m2[i]
      {
        TraceStep(input, items, 0, i);
        var before := LastIndexBefore(input, items, 0, i);
        TestFinds(input, before, Project(items[i]));
        if m1[i] {
          var p :| before <= p && MatchesAt(Project(items[i]), input, p);
        }
      }
      ScanSelectsVerdicts(input, items, 0);
      SelectFewer(b, m1, m2);
    } else {
      var empty: seq<string> := [];
      assert Select(empty, []) == [];
    }
  }
}

=== FILE: selection.dfy ===
/** Type-ahead (`typeAhead` and `selectRange` in jquery.autosuggest.js): the
    input's value is replaced by the suggestion and the part after what had
    been typed is selected, so that typing on overwrites it. */
module Selection {

  /** A text field's value with its selection [start, end). */
  datatype Edit = Edit(value: string, start: nat, end: nat)

  /** `setSelectionRange(start, end)` on a field holding `value`: both ends
      are clamped to the value's length, and a start past the end is moved
      onto the end. (The `createTextRange` branch selects the same range:
      its end moves by `length - value.length`, which is 0 here.) */
  function SetSelectionRange(value: string, start: nat, end: nat): (e: Edit)
    ensures e.value == value
    ensures e.start <= e.end <= |value|
    ensures end <= |value| ==> e.end == end
    ensures start <= end <= |value| ==> e.start == start
    ensures end > |value| ==> e.end == |value|
    ensures start > e.end ==> e.start == e.end
  {
    var b := if end <= |value| then end else |value|;
    var a := if start <= b then start else b;
    Edit(value, a, b)
  }

  /** `typeAhead(suggestion)` on a field holding `typed`: remember the length
      of `typed`, write the suggestion, and select from that length to the
      suggestion's length. */
  function TypeAhead(typed: string, suggestion: string): (e: Edit)
    ensures e.value == suggestion
    ensures e.end == |suggestion|
    ensures e.start == (if |typed| <= |suggestion| then |typed| else |suggestion|)
  {
    var len := |typed|;
    SetSelectionRange(suggestion, len, |suggestion|)
  }

  /** The selected part of an edit. */
  function Selected(e: Edit): (s: string)
    requires e.start <= e.end <= |e.value|
  {
    e.value[e.start..e.end]
  }

  /** Whenever the suggestion is at least as long as what was typed, the
      selection is exactly the suggestion minus its first |typed| characters:
      the unselected head plus the selected tail is the whole suggestion. */
  lemma TypeAheadSelectsTail(typed: string, suggestion: string)
    requires |typed| <= |suggestion|
    ensures var e := TypeAhead(typed, suggestion);
      && e.start == |typed| && e.end == |e.value|
      && Selected(e) == suggestion[|typed|..]
      && e.value[..e.start] + Selected(e) == suggestion
  {
  }
}

=== FILE: source.dfy ===
/** Where the candidates come from (`getData` in jquery.autosuggest.js).

    `getData` tries, in this order, a named provider function, a static
    `suggestionsList`, and an `ajaxurl` backed by `localStorage`. The
    browser's storage, clock and connectivity are inputs here; the network
    request itself is an outcome (`Fetch`), since its success callback's
    `return response` never reaches the caller of `getData`. */
module Source {
  import opened Wrappers
  import opened Matcher

  /** Seconds before stored data is refreshed (`duration`). */
  const Duration: int := 600

  /** The same period in milliseconds, the unit `getTime` uses. */
  const TtlMillis: int := Duration * 1000

  /** The stored timestamp string: absent, not a date (`new Date` gives NaN),
      or a point in time in milliseconds. */
  datatype Stamp = Missing | Unparsable | At(millis: int)

  /** The two `localStorage` entries the plugin uses. The JSON round trip of
      the data is taken to be the identity; `None` is a missing entry
      (`JSON.parse(null)` is `null`). */
  datatype Storage = Storage(stamp: Stamp, data: Option<seq<Candidate>>)

  /** The options `getData` reads. */
  datatype Config = Config(
    provider: Option<string>,
    suggestionsList: Option<seq<Candidate>>,
    ajaxurl: Option<string>,
    localStorage: bool)

  /** The browser state `getData` reads: whether `window.localStorage` is
      non-null (the test `store !== null`), its contents, `navigator.onLine`,
      and the current time. */
  datatype Env = Env(storeAvailable: bool, storage: Storage, online: bool, now: int)

  /** The branch `getData` takes. */
  datatype Outcome =
    | CallProvider(depth: nat)   // the provider named by a dotted path of `depth` parts
    | ProviderTooDeep            // more than four parts: no `case` applies, `undefined` is returned
    | MatchList                  // `findSuggestions` over the static list
    | UseCache                   // the stored data
    | Fetch(store: bool)         // an ajax request; `store` says whether success writes storage
    | Empty                      // `[]`

  /** `s.split('.')`: the parts between dots, empty parts included. */
  function SplitDots(s: string): (r: seq<string>)
    ensures |r| >= 1
    ensures forall i :: 0 <= i < |r| ==> '.' !in r[i]
  {
    if |s| == 0 then [""]
    else
      var rest := SplitDots(s[1..]);
      if s[0] == '.' then [""] + rest
      else [[s[0]] + rest[0]] + rest[1..]
  }

  /** The parts joined back with dots. */
  function JoinDots(parts: seq<string>): (name: string)
    requires |parts| >= 1
  {
    if |parts| == 1 then parts[0] else parts[0] + "." + JoinDots(parts[1..])
  }

  /** Splitting at the dots loses nothing: joining the parts restores the name. */
  lemma {:induction false} SplitJoin(s: string)
    ensures JoinDots(SplitDots(s)) == s
  {
    if |s| > 0 {
      var rest := SplitDots(s[1..]);
      SplitJoin(s[1..]);
      if s[0] == '.' {
        assert SplitDots(s)[1..] == rest;
        assert s == [s[0]] + s[1..];
      } else {
        var r := SplitDots(s);
        if |rest| == 1 {
          assert r == [[s[0]] + rest[0]];
        } else {
          assert r[1..] == rest[1..];
          assert rest == [rest[0]] + rest[1..];
          assert JoinDots(rest) == rest[0] + "." + JoinDots(rest[1..]);
        }
        assert s == [s[0]] + s[1..];
      }
    }
  }

  /** The number of namespaces of a provider name: one more than its dots. */
  function Depth(name: string): (d: nat)
    ensures d >= 1
  {
    |SplitDots(name)|
  }

  /** The stored timestamp has expired: it is a date, and that date plus
      `duration` seconds lies strictly before now. NaN compares false, so an
      unparsable timestamp never expires. */
  function Expired(stamp: Stamp, now: int): (b: bool)
    ensures b ==> stamp.At?
    ensures stamp.At? ==> (b <==> now - stamp.millis > TtlMillis)
  {
    stamp.At? && stamp.millis + Duration * 1000 < now
  }

  /** Once expired, a timestamp stays expired as time goes on; before it
      expires, it is still fresh at every earlier moment. */
  lemma ExpiredStaysExpired(stamp: Stamp, now: int, later: int)
    requires now <= later
    ensures Expired(stamp, now) ==> Expired(stamp, later)
    ensures !Expired(stamp, later) ==> !Expired(stamp, now)
  {
  }

  /** The branch structure of `getData`. */
  function Decide(cfg: Config, env: Env): (o: Outcome)
    ensures o.Fetch? ==> env.online && cfg.ajaxurl.Some?
    ensures o.UseCache? ==> env.storage.stamp != Missing && cfg.localStorage && env.storeAvailable
    ensures o.CallProvider? ==> 1 <= o.depth <= 4
  {
    if cfg.provider.Some? then
      var d := Depth(cfg.provider.value);
      if d <= 4 then CallProvider(d) else ProviderTooDeep
    else if cfg.suggestionsList.Some? then
      MatchList
    else if cfg.ajaxurl.Some? then
      if cfg.localStorage && env.storeAvailable then
        if env.storage.stamp != Missing then
          if Expired(env.storage.stamp, env.now) then
            if env.online then Fetch(true) else UseCache
          else UseCache
        else if env.online then Fetch(true) else Empty
      else if env.online then Fetch(false) else Empty
    else Empty
  }

  /** What `getData` returns; `None` stands for `undefined` or `null`, which
      make `doSuggest` throw when it reads `items.length`, or for a
      `TypeError` or `ReferenceError` thrown inside `getData` itself, before
      `items.length` is reached. Either way the widget is left unchanged.
      `providerResult` is what the named provider function returns for the
      query (code outside this file). A single-part name calls
      `window[provider]` with the module variable `provider`, which is never
      assigned, so the call is `window["undefined"](...)` and throws. */
  function Resolve(cfg: Config, env: Env, query: string,
                   providerResult: Option<seq<Candidate>>): (r: Option<seq<Candidate>>)
    ensures Decide(cfg, env) == MatchList ==>
      r.Some? && |r.value| <= |cfg.suggestionsList.value| && (|query| == 0 ==> r.value == [])
  {
    match Decide(cfg, env)
    case CallProvider(d) => if d == 1 then None else providerResult
    case ProviderTooDeep => None
    case MatchList => Some(AsPlain(FindSuggestions(query, cfg.suggestionsList.value)))
    case UseCache => env.storage.data
    case Fetch(_) => None
    case Empty => Some([])
  }

  /** The strings `findSuggestions` returns, as elements of a candidate array. */
  function AsPlain(xs: seq<string>): (r: seq<Candidate>)
    ensures |r| == |xs|
    ensures forall i :: 0 <= i < |xs| ==> r[i] == Plain(xs[i])
  {
    if |xs| == 0 then [] else [Plain(xs[0])] + AsPlain(xs[1..])
  }

  /** The ajax success callback at time `now`: with storage it writes the
      response and the time; without, it stores nothing. */
  function OnFetchSuccess(storage: Storage, response: seq<Candidate>, now: int,
                          store: bool): (s: Storage)
    ensures store ==> s.stamp == At(now) && s.data == Some(response)
    ensures !store ==> s == storage
  {
    if store then Storage(At(now), Some(response)) else storage
  }

  // ---------------------------------------------------------------------
  // Properties

  /** Only ajax configured, storage usable. */
  predicate AjaxWithStorage(cfg: Config, env: Env) {
    cfg.provider.None? && cfg.suggestionsList.None? && cfg.ajaxurl.Some?
    && cfg.localStorage && env.storeAvailable
  }

  /** Precedence: a provider wins over a list, a list over an ajax url. */
  lemma SourcePrecedence(cfg: Config, env: Env)
    ensures cfg.provider.Some? <==>
              Decide(cfg, env).CallProvider? || Decide(cfg, env).ProviderTooDeep?
    ensures Decide(cfg, env) == MatchList <==> cfg.provider.None? && cfg.suggestionsList.Some?
    ensures (Decide(cfg, env).UseCache? || Decide(cfg, env).Fetch?) ==>
              cfg.provider.None? && cfg.suggestionsList.None? && cfg.ajaxurl.Some?
  {
  }

  /** A provider name with one to four parts is called with that depth. */
  lemma ProviderDepth(cfg: Config, env: Env)
    requires cfg.provider.Some?
    ensures var d := |SplitDots(cfg.provider.value)|;
      Decide(cfg, env) == (if d <= 4 then CallProvider(d) else ProviderTooDeep)
  {
  }

  /** Freshness: with a stored date, the stored data is used without fetching
      exactly when date + 600000 >= now, or when offline; an online widget
      fetches exactly when the date is strictly older than that. */
  lemma Freshness(cfg: Config, env: Env, t: int)
    requires AjaxWithStorage(cfg, env) && env.storage.stamp == At(t)
    ensures Decide(cfg, env) == UseCache <==> t + TtlMillis >= env.now || !env.online
    ensures Decide(cfg, env) == Fetch(true) <==> t + TtlMillis < env.now && env.online
    ensures Decide(cfg, env) == UseCache || Decide(cfg, env) == Fetch(true)
  {
  }

  /** Offline, expired data is still returned, whatever its age. */
  lemma OfflineUsesStaleData(cfg: Config, env: Env, query: string, pr: Option<seq<Candidate>>)
    requires AjaxWithStorage(cfg, env) && env.storage.stamp.At? && !env.online
    ensures Resolve(cfg, env, query, pr) == env.storage.data
  {
  }

  /** A timestamp that is not a date never expires: the stored data is used
      even online. */
  lemma UnparsableStampNeverExpires(cfg: Config, env: Env)
    requires AjaxWithStorage(cfg, env) && env.storage.stamp == Unparsable
    ensures Decide(cfg, env) == UseCache
  {
  }

  /** The cases that give `[]`: no source at all; storage but no timestamp,
      offline; no storage, offline. These are the only ones. */
  lemma EmptyOutcomes(cfg: Config, env: Env)
    ensures Decide(cfg, env) == Empty <==>
      || (cfg.provider.None? && cfg.suggestionsList.None? && cfg.ajaxurl.None?)
      || (AjaxWithStorage(cfg, env) && env.storage.stamp == Missing && !env.online)
      || (cfg.provider.None? && cfg.suggestionsList.None? && cfg.ajaxurl.Some?
          && !(cfg.localStorage && env.storeAvailable) && !env.online)
  {
  }

  /** A request is only issued online, and only to an ajax url; its result is
      never what `getData` returns. */
  lemma FetchOnlyOnline(cfg: Config, env: Env, query: string, pr: Option<seq<Candidate>>)
    requires Decide(cfg, env).Fetch?
    ensures env.online && cfg.ajaxurl.Some?
    ensures Resolve(cfg, env, query, pr) == None
    ensures Decide(cfg, env).store <==> cfg.localStorage && env.storeAvailable
  {
  }

  /** Fetch then cache: once the success callback has stored its response at
      time `answered`, every later call up to answered + 600000 ms uses that
      response, online or not. */
  lemma FetchedDataServedUntilExpiry(cfg: Config, env: Env, response: seq<Candidate>, answered: int,
                                     later: int, on: bool, query: string,
                                     pr: Option<seq<Candidate>>)
    requires AjaxWithStorage(cfg, env)
    requires Decide(cfg, env) == Fetch(true)
    requires later <= answered + TtlMillis
    ensures var stored := OnFetchSuccess(env.storage, response, answered, true);
      var env' := env.(storage := stored, now := later, online := on);
      Resolve(cfg, env', query, pr) == Some(response)
  {
  }

  /** A single-part provider name is never called: `getData` throws. */
  lemma SingleNameProviderThrows(cfg: Config, env: Env, query: string, pr: Option<seq<Candidate>>)
    requires cfg.provider.Some? && '.' !in cfg.provider.value
    ensures Resolve(cfg, env, query, pr) == None
  {
    SplitJoin(cfg.provider.value);
    NoDotsOnePart(cfg.provider.value);
  }

  /** A name without dots splits into one part. */
  lemma {:induction false} NoDotsOnePart(s: string)
    requires '.' !in s
    ensures SplitDots(s) == [s]
  {
    if |s| > 0 {
      assert '.' !in s[1..] by {
        assert forall i :: 0 <= i < |s[1..]| ==> s[1..][i] == s[i + 1];
      }
      NoDotsOnePart(s[1..]);
      assert s == [s[0]] + s[1..];
    }
  }

  // ---------------------------------------------------------------------
  // As evidently intended

  /** `getData` as evidently intended: a single-part provider name calls the
      configured provider, and the static list is handed over unmatched, so
      that `doSuggest` matches it once. */
  function ResolveIntended(cfg: Config, env: Env,
                           providerResult: Option<seq<Candidate>>): (r: Option<seq<Candidate>>)
    ensures Decide(cfg, env) == MatchList ==> r == cfg.suggestionsList
    ensures Decide(cfg, env).CallProvider? ==> r == providerResult
  {
    match Decide(cfg, env)
    case CallProvider(_) => providerResult
    case ProviderTooDeep => None
    case MatchList => cfg.suggestionsList
    case UseCache => env.storage.data
    case Fetch(_) => None
    case Empty => Some([])
  }

  /** The two definitions differ only on the single-part provider and the
      static list. */
  lemma ResolveIntendedAgrees(cfg: Config, env: Env, query: string, pr: Option<seq<Candidate>>)
    requires Decide(cfg, env) != MatchList && Decide(cfg, env) != CallProvider(1)
    ensures ResolveIntended(cfg, env, pr) == Resolve(cfg, env, query, pr)
  {
  }
}

=== FILE: wrappers.dfy ===
/** The optional-value datatype used throughout the model. */
module Wrappers {

  /** `None` stands for JavaScript's `undefined`/`null` where the code
      expects an array or a number. */
  datatype Option<+T> = None | Some(value: T)
}
